=== FILE: README.md ===
# jerasure-rs contract layer in Dafny

jerasure-rs is a Rust binding of the Jerasure erasure-coding library and of the
GF-Complete Galois-field library. This project models the Rust side of the
binding: everything the wrapper decides before, around and instead of a call
into the native library.

- `common.dfy` (module `Common`): the error kinds, the outcome of a call
  (a value, a reported error, or a panic), the `i32` range of the C
  interface, the machine alignment unit `size_of::<c_long>()` (left open
  between 4 and 8, so every fact holds on both kinds of platform) and the
  field width `CodeWord`.
- `galois.dfy` (module `Galois`): `GaloisField::try_from_code_word`, scalar
  `add`, `region_add`, `region_acc` and the validation and kernel dispatch of
  `region_multiply`.
- `builder.dfy` (module `Builder`): `ErasureCodeBuilder` and its `build`,
  `check_packet_size`, and the accessors of a built `ErasureCode`. The native
  constructors (coding matrix, bit-matrix expansion, schedule, schedule cache)
  are uninterpreted functions in a `Native` record; a null result is `None`.
- `codec.dfy` (module `Codec`): the buffer check shared by `encode` and
  `decode`, the sanitising of the erasure list, `row_k_ones`, and the choice
  of native encode/decode routine. Each operation returns the native call it
  issues; the status of the native decode routine is a parameter.

A Rust panic (`unimplemented!()`, an `i32` overflow under overflow checks, a
failed `try_into().unwrap()` of a length into a C `int`) is the `Panic`
outcome. Overflow checks are taken to be on, as in debug builds. Three
points where the code decides the model:

- `region_multiply` on a width other than 8, 16 or 32 returns `NotSupported`,
  although its doc comment (src/galois.rs:170-171) says it panics.
- `build` checks the packet size after the native structures are built, so a
  null bit-matrix or schedule is reported before a bad packet size.
- `build` evaluates the field-size bound `k + m <= 2^w` with an `i32` shift
  (src/erasure.rs:261). So a width of 32 or more panics, width 31 is always
  rejected, and only codes up to 30 bits are built (see "## Findings").

## Model

| member | source | states |
|---|---|---|
| Galois.TryFromCodeWord | src/galois.rs:26-33 | No field exactly for widths 0 and above 32; otherwise a handle bound to the requested width. |
| Galois.TryFromCodeWordExamples | tests/galois.rs:1-13 | The three canonical widths and every width 1..=32 yield a field; 0 and 33 do not. |
| Galois.Add | src/galois.rs:52-64 | Every bit of the sum is the sum modulo 2 of the operands' bits (coefficient-wise addition of GF(2) polynomials). |
| Galois.AddLaws | src/galois.rs:52-64 | Field addition is commutative and associative, has 0 as identity, and every element is its own inverse. |
| Galois.AddDocExample | src/galois.rs:59 | `add(24, 54) == 46`, the documented example. |
| Galois.RegionXor | src/galois.rs:124-131 | Same length as `dest`, byte `i` is `dest[i] ^ src[i]`. |
| Galois.RegionAdd | src/galois.rs:97-133 | `InvalidArguments` exactly for a length mismatch, `NotAligned(n)` exactly for a misaligned common length, a panic exactly beyond `i32::MAX`, and success exactly in every other case, with `out[i] = a[i] + b[i]` for every byte. |
| Galois.RegionAcc | src/galois.rs:138-164 | The same error cases for `buf` and `acc`, and success exactly in every other case, with `buf[i] = buf[i] + acc[i]` for every byte. |
| Galois.RegionAccIsRegionAdd | src/galois.rs:135-164 | Accumulating into `buf` is `region_add(buf, acc, buf)`, error cases included. |
| Galois.RegionAddCommutes | src/galois.rs:97-133 | Swapping the two operands of `region_add` changes nothing. |
| Galois.RegionAccTwiceRestores | src/galois.rs:138-164 | Accumulating the same region twice gives back the original buffer. |
| Galois.RegionAddTestVector | tests/galois.rs:50-71 | The eight-byte XOR vector of the unit test, through both `region_add` and `region_acc`. |
| Galois.RegionMultiply | src/galois.rs:172-208 | Length mismatch, then misalignment, then a non-canonical width (`NotSupported`), then a panic beyond `i32::MAX`, each exactly; success exactly in every other case, calling the kernel of the field's width with the given factor, addend and byte count. |
| Galois.RegionMultiplyFieldWidths | src/galois.rs:192-200 | For every width a field can be created with (1 to 32) and valid buffers, region multiply succeeds exactly for widths 8, 16 and 32 and is `NotSupported` for the others. |
| Galois.RegionMultiplyValidatesLikeRegionAcc | src/galois.rs:172-208 | For a canonical width, `region_multiply(src, _, _, dest)` fails on exactly the inputs where `region_acc(dest, src)` fails, with the same error or panic. |
| Builder.NewBuilder | src/erasure.rs:180-192 | A fresh builder has width 8, leaves `k`, `m`, `packet_size`, `tech` and `coding_method` unset, and satisfies the setters' non-zero `i32` invariant. |
| Builder.ErasureCode.Tech | src/erasure.rs:489-497 | Each representation reports its own technique: `Matrix` exactly for a matrix, and likewise for bit-matrix, schedule and schedule cache. |
| Builder.CheckPacketSize | src/erasure.rs:440-458 | Succeeds exactly for a set, positive multiple of the `long` size and returns it unchanged; every failure is `InvalidArguments`. |
| Builder.CheckPacketSizeExamples | tests/erasure.rs:203-272 | Missing, -1 and 42 are rejected; 128 is accepted. |
| Builder.FieldBoundAsWrittenAgreesBelow31 | src/erasure.rs:261-266 | For widths up to 30 the `i32` shift is exact and the written bound equals the intended one. |
| Builder.FieldBoundAsWrittenOk | src/erasure.rs:261-266 | The written bound passes exactly when the width is at most 30 and `k + m <= 2^w`; below width 32, with no overflow, every other case is `InvalidArguments`. |
| Builder.FieldBoundAsWrittenRejectsWideWords | src/erasure.rs:261-266 | As written, width 32 always panics and width 31 always rejects, although every valid `k + m` fits `2^w`. |
| Builder.FieldBoundIsPowerOfTwo | src/erasure.rs:207-217 | The corrected bound accepts exactly `k + m <= 2^w` and rejects the rest with `InvalidArguments`; width 32 always fits. |
| Builder.Build | src/erasure.rs:241-324 | A built code is valid (positive `k`, `m`, `k + m <= 2^w`, an implemented method, the technique's demands) and at most 30 bits wide. It reports the requested `k`, `m`, `w`, technique and method and keeps the packet size. |
| Builder.BuildOkIff | src/erasure.rs:241-458 | `build` succeeds exactly when all of these hold: positive `k` and `m` with an `i32` sum; a width of at most 30 with `k + m <= 2^w`; Reed-Solomon Vandermonde or Cauchy, with a non-null coding matrix; and the technique's demands. `Matrix` needs a canonical width. The bit-matrix techniques need Cauchy, `m = 2` for the schedule cache, every native structure they derive non-null, and a valid packet size. |
| Builder.BuildRejectsParameters | src/erasure.rs:242-266 | These are `InvalidArguments` whatever the natives and the method: a missing field, a non-positive `k` or `m`, an `i32` sum `k + m > 2^w` below width 32, or width 31 with an `i32` sum. |
| Builder.BuildOverflowPanics | src/erasure.rs:258-266 | Once every field is set and `k`, `m` are positive, an `i32` overflow of `k + m` or a width of 32 or more panics. |
| Builder.BuildUnimplementedPanics | src/erasure.rs:267-271 | Liberation, Liber8tion and Blaum-Roth panic once the parameters pass the checks, the width being at most 30. |
| Builder.BuildNotSupported | src/erasure.rs:273-310 | Once the coding matrix is built (non-null): Reed-Solomon Vandermonde with any technique but `Matrix`, a schedule cache with `m != 2`, and `Matrix` with a non-canonical width are `NotSupported`, for parameters that pass the checks (width at most 30). |
| Builder.BuildMatrixNull | src/erasure.rs:267-271 | For parameters that pass the checks (width at most 30), a null coding matrix is reported as `Other`, whatever the technique. |
| Builder.BuildDerivedNull | src/erasure.rs:362-432 | Under Cauchy, with the parameters passing the checks and the coding matrix built: a null bit-matrix, schedule or schedule cache that the technique needs is `Other`, whatever the packet size. |
| Builder.BuildPacketSize | src/erasure.rs:281-313 | For parameters that pass the checks (width at most 30) and with the native structures the technique calls in place, a bit-matrix technique builds exactly when the packet size is valid, stores it, and otherwise fails with `InvalidArguments`. |
| Builder.BuildTestScenarios | tests/erasure.rs:18-272 | The construction outcomes of the integration tests (successful builds, `NotSupported` combinations, bad `k`, `m`, `k + m` and packet sizes). |
| Builder.BuildWideWordScenarios | src/erasure.rs:258-266 | With natives that always succeed, a width-32 request (k = 4, m = 2) panics and a width-31 request (k = m = 1) is `InvalidArguments`. |
| Codec.Scan | src/erasure.rs:786-807 | Succeeds exactly when every block is aligned and of the common length; otherwise the first block that is not decides the error, alignment first. |
| Codec.CheckBuffers | src/erasure.rs:766-854 | Wrong block counts are `InvalidArguments`; success exactly when all data and parity blocks fit the first data block's length, which is returned; otherwise the first misfit, data before parity, decides the error. |
| Codec.Insert | src/erasure.rs:645-648 | Insertion keeps a list strictly increasing and adds exactly the new value. |
| Codec.SortDedup | src/erasure.rs:645-648 | Sorting and deduplicating gives a strictly increasing list with exactly the values of the input. |
| Codec.StrictlyIncreasingUnique | src/erasure.rs:645-648 | Two strictly increasing lists with the same values are equal. |
| Codec.StrictlyIncreasingCount | src/erasure.rs:659-661 | A strictly increasing list has as many distinct values as elements. |
| Codec.SanitiseErasures | src/erasure.rs:645-662 | `InvalidArguments` exactly when an index is outside `[0, k + m)`; `TooManyErased(count, m)` exactly when all are in range and more than `m` are distinct; otherwise the distinct indices in increasing order followed by `-1`. |
| Codec.SanitiseErasuresDependsOnSetOnly | src/erasure.rs:645-662 | Order and repetition of the erased indices do not change the outcome. |
| Codec.RowKOnes | src/erasure.rs:678-680 | 1 exactly for Reed-Solomon Vandermonde, 0 for every other method. |
| Codec.Encode | src/erasure.rs:547-618 | A buffer error is returned as is; a block size beyond `i32::MAX` panics; otherwise the native routine of the code's representation on the checked block size and packet size (a schedule cache encodes with its schedule). |
| Codec.Decode | src/erasure.rs:638-762 | Out-of-range indices are `InvalidArguments` whatever the buffers; buffer errors come after the erasure list; past both checks a block size beyond `i32::MAX` panics and a nonzero native status is `Other`; success means the sanitised list, the checked size, the representation's routine, `row_k_ones` set exactly for Reed-Solomon Vandermonde, and a zero native status. |
| Codec.DecodeTooManyErased | src/erasure.rs:645-662 | Too many distinct erasures are reported before the buffers are looked at, repeated indices counting once. |
| Codec.SanitiseErasuresOutOfRange | tests/erasure.rs:303-316 | Indices -1 and 6 with `k = 4`, `m = 2` are rejected. |
| Codec.SanitiseErasuresTooMany | tests/erasure.rs:318-329 | Erasing 0, 4 and 5 with `m = 2` is `TooManyErased(3, 2)`. |

## Left out

- Scalar `multiply`, `divide` and `inverse` of `GaloisField` (src/galois.rs:40-90): thin calls into GF-Complete whose results the binding does not check; the field initialisation in `try_from_code_word` is a side effect and is not modelled.
- `get_w` (src/galois.rs:36-38): it re-derives the width through `CodeWord::from_u8`, whose definition is not part of the repository files this model follows (src/lib.rs does not define `CodeWord`), so the round trip through `u8` is not stated.
- Galois.RegionMultiply: the bytes the native kernel writes into `dest` are not modelled; the contract stops at which kernel is called with which arguments. That `src` is left unchanged holds only by construction, because a function cannot modify its arguments; the source hands `src` to C through a `*mut` cast (src/galois.rs:202).
- Galois.RegionAdd: `out` is overwritten with `b` (src/galois.rs:124) before the length conversion that can panic; the `Panic` outcome carries no buffer state, so the contents of `out` after a caught panic are not modelled.
- Codec.Encode and Codec.Decode: the parity and recovered bytes produced by the native routines are not modelled, nor whether the coding matrix is invertible; the native decode status is a parameter.
- Codec.Encode: that the data blocks are left unchanged holds only by construction, because a function cannot modify its arguments; the source hands them to C through `*mut` casts (src/erasure.rs:554-566).
- Builder.Build: the native matrix, bit-matrix, schedule and cache are uninterpreted pointers; their contents are Jerasure's business.
- `_encode_parity` (src/erasure.rs:499-537): private and unused.
- `Drop` implementations, raw-pointer ownership and the freeing of a half-built schedule (src/erasure.rs:83-144, 420-432): memory management, not behaviour of the contract layer.
- Release-build semantics: overflow checks are modelled as in debug builds, so an overflowing `k + m` or a shift by 32 or more panics. In release builds both would wrap.
- Codec.SanitiseErasures: the `usize`-to-`i32` cast of the erasure count is taken as exact; it could only differ for more than `i32::MAX` erasures.
- The builder setters are record updates; the `NonZeroI32` they take becomes the `Wf` invariant that `Build` requires.
- `CodeWord` and `Error` are rebuilt from their uses in src/erasure.rs and src/galois.rs, because src/lib.rs defines an older `Error` enum; only `MACHINE_LONG_SIZE` (src/lib.rs:10) is taken from it.
- Galois.Add: the `i32` operands are taken as their 32-bit patterns, which is what `^` operates on.

## Findings

| source | as written | input that shows it | evidently intended | confidence | as-written member | corrected member |
|---|---|---|---|---|---|---|
| src/erasure.rs:261 | `1 << w.to_u8()` is an `i32` shift, so `2^w` overflows for `w >= 31` | `W32`, `k = 4`, `m = 2`: the shift overflows and panics with overflow checks (without them it yields 1 and the code is rejected); `Other(31)`, `k = m = 1`: the bound is `i32::MIN` and every code is rejected | `k + m <= 2^w` with `2^w` computed exactly, so width 32 accepts every `i32` sum | high, not executed | Builder.FieldBoundAsWrittenRejectsWideWords | Builder.FieldBoundIsPowerOfTwo |

`Builder.Build` follows the code as written. The corrected bound `FieldBound` agrees with it up to width 30 (`FieldBoundAsWrittenAgreesBelow31`).

=== FILE: builder.dfy ===
/**
 * Construction of an erasure code: `ErasureCodeBuilder::build` as a pure
 * decision from the builder's optional fields to a built code, a reported
 * error or a panic. The native constructors (coding matrix, bit-matrix
 * expansion, schedule compilation, schedule cache) are oracles passed in a
 * `Native` record; each either returns a pointer or a null pointer, which
 * the binding reports as `Other`.
 */
module Builder {
  import opened Common

  /** The technique a code encodes and decodes with (`Technique`). */
  datatype Technique = Matrix | BitMatrix | Schedule | ScheduleCache

  /** The matrix generation algorithm (`CodingMethod`). The last three have no
      construction in the binding. */
  datatype CodingMethod = ReedSolVand | Cauchy | Liberation | Liber8tion | BlaumRoth

  /** The address of a structure allocated by the native library. A null
      pointer is `None` wherever a `Ptr` may be missing. */
  datatype Ptr = Ptr(addr: nat)

  /** The native constructors, as uninterpreted functions of (k, m, w) and,
      for the derived structures, of the structure they derive from. */
  datatype Native = Native(
    reedSolVandermondeCodingMatrix: (int, int, CodeWord) -> Option<Ptr>,
    cauchyGoodGeneralCodingMatrix: (int, int, CodeWord) -> Option<Ptr>,
    matrixToBitmatrix: (int, int, CodeWord, Ptr) -> Option<Ptr>,
    smartBitmatrixToSchedule: (int, int, CodeWord, Ptr) -> Option<Ptr>,
    generateScheduleCache: (int, int, CodeWord, Ptr) -> Option<Ptr>)

  /** The representation a built code holds (`TechInner`). */
  datatype TechInner =
    | MatrixRep(mat: Ptr)
    | BitMatrixRep(bmat: Ptr, packetSize: int)
    | ScheduleRep(bmat: Ptr, packetSize: int, schedule: Ptr)
    | ScheduleCacheRep(packetSize: int, k: int, m: int, schedule: Ptr, cache: Ptr)

  /** A packet size the schedule-based techniques accept. */
  predicate ValidPacketSize(p: int) {
    p > 0 && Aligned(p)
  }

  /** A built code. `k`, `m` and `w` are its accessors. */
  datatype ErasureCode = ErasureCode(tech: TechInner, k: int, m: int, w: CodeWord, codingMethod: CodingMethod) {

    /** The `tech()` accessor: the technique variant of the representation. */
    function Tech(): (t: Technique)
      ensures t == Matrix <==> tech.MatrixRep?
      ensures t == BitMatrix <==> tech.BitMatrixRep?
      ensures t == Schedule <==> tech.ScheduleRep?
      ensures t == ScheduleCache <==> tech.ScheduleCacheRep?
    {
      match tech
      case MatrixRep(_) => Matrix
      case BitMatrixRep(_, _) => BitMatrix
      case ScheduleRep(_, _, _) => Schedule
      case ScheduleCacheRep(_, _, _, _, _) => ScheduleCache
    }

    /** What every code returned by `build` satisfies. */
    predicate Valid() {
      && 0 < k && 0 < m && IsI32(k) && IsI32(m) && IsI32(k + m)
      && k + m <= Pow2(w.ToU8())
      && (codingMethod == ReedSolVand || codingMethod == Cauchy)
      && match tech
         case MatrixRep(_) => w.IsCanonical()
         case BitMatrixRep(_, p) => codingMethod == Cauchy && ValidPacketSize(p)
         case ScheduleRep(_, p, _) => codingMethod == Cauchy && ValidPacketSize(p)
         case ScheduleCacheRep(p, ck, cm, _, _) =>
           codingMethod == Cauchy && m == 2 && ck == k && cm == m && ValidPacketSize(p)
    }
  }

  /** The builder: every field but `w` starts unset. */
  datatype ErasureCodeBuilder = ErasureCodeBuilder(
    k: Option<int>,
    m: Option<int>,
    w: CodeWord,
    packetSize: Option<int>,
    tech: Option<Technique>,
    codingMethod: Option<CodingMethod>)
  {
    /** The setters of `k`, `m` and `packet_size` take a `NonZeroI32`. */
    predicate Wf() {
      NonZeroI32(k) && NonZeroI32(m) && NonZeroI32(packetSize)
    }
  }

  predicate NonZeroI32(o: Option<int>) {
    o.Some? ==> o.value != 0 && IsI32(o.value)
  }

  /** `ErasureCodeBuilder::new()`. */
  function NewBuilder(): (b: ErasureCodeBuilder)
    ensures b.Wf() && b.w == W8
    ensures b.k.None? && b.m.None? && b.packetSize.None? && b.tech.None? && b.codingMethod.None?
  {
    ErasureCodeBuilder(None, None, W8, None, None, None)
  }

  /** A required field: its absence is `InvalidArguments`. */
  function Required<T>(o: Option<T>): Outcome<T> {
    match o
    case None => Err(InvalidArguments)
    case Some(v) => Ok(v)
  }

  /** A native constructor's result: null is reported as `Other`. */
  function NonNull(p: Option<Ptr>): Outcome<Ptr> {
    match p
    case None => Err(Error.Other)
    case Some(q) => Ok(q)
  }

  /** `check_packet_size`: the packet size must be set, positive and a
      multiple of the machine `long` size, and is then returned as is. */
  function CheckPacketSize(packetSize: Option<int>): (r: Outcome<int>)
    ensures r.Ok? <==> packetSize.Some? && ValidPacketSize(packetSize.value)
    ensures r.Ok? ==> r.value == packetSize.value
    ensures !r.Ok? ==> r == Err(InvalidArguments)
  {
    var p :- Required(packetSize);
    if p <= 0 then Err(InvalidArguments)
    else if p % MACHINE_LONG_SIZE != 0 then Err(InvalidArguments)
    else Ok(p)
  }

  /** The packet sizes exercised by the tests. */
  lemma CheckPacketSizeExamples()
    ensures CheckPacketSize(None) == Err(InvalidArguments)
    ensures CheckPacketSize(Some(-1)) == Err(InvalidArguments)
    ensures CheckPacketSize(Some(42)) == Err(InvalidArguments)
    ensures CheckPacketSize(Some(128)) == Ok(128)
  {
  }

  /** The field-size bound `k + m <= 2^w` of `build`, AS WRITTEN: `k + m` and
      `1 << w` are `i32` expressions. With overflow checks (debug builds) an
      overflowing sum or a shift by 32 or more panics; a shift by 31 lands in
      the sign bit and yields `i32::MIN`. */
  function FieldBoundAsWritten(k: int, m: int, w: CodeWord): Outcome<()>
    requires IsI32(k) && IsI32(m)
  {
    if !IsI32(k + m) then Panic
    else if w.ToU8() >= 32 then Panic
    else if k + m > WrapI32(Pow2(w.ToU8())) then Err(InvalidArguments)
    else Ok(())
  }

  /** The field-size bound as evidently intended: `2^w` computed without
      wrapping (as a 64-bit shift would), the `i32` sum of `k + m` kept. */
  function FieldBound(k: int, m: int, w: CodeWord): Outcome<()>
    requires IsI32(k) && IsI32(m)
  {
    if !IsI32(k + m) then Panic
    else if w.ToU8() >= 64 then Panic
    else if k + m > Pow2(w.ToU8()) then Err(InvalidArguments)
    else Ok(())
  }

  lemma {:induction false} Pow2Monotone(a: nat, b: nat)
    requires a <= b
    ensures Pow2(a) <= Pow2(b)
    decreases b
  {
    if a < b {
      Pow2Monotone(a, b - 1);
    }
  }

  /** The corrected bound accepts exactly the pairs with `k + m <= 2^w`, for
      every width up to 63 and every sum that fits an `i32`; in particular
      every such pair fits `W32`. */
  lemma FieldBoundIsPowerOfTwo(k: int, m: int, w: CodeWord)
    requires IsI32(k) && IsI32(m) && IsI32(k + m) && w.ToU8() < 64
    ensures FieldBound(k, m, w) == Ok(()) <==> k + m <= Pow2(w.ToU8())
    ensures FieldBound(k, m, w) == Err(InvalidArguments) <==> k + m > Pow2(w.ToU8())
    ensures w == W32 ==> FieldBound(k, m, w) == Ok(())
  {
    if w == W32 {
      Pow2Values();
      Pow2Monotone(31, 32);
    }
  }

  /** Below 31 bits the shift cannot overflow and the written bound is the
      intended one. */
  lemma FieldBoundAsWrittenAgreesBelow31(k: int, m: int, w: CodeWord)
    requires IsI32(k) && IsI32(m) && w.ToU8() <= 30
    ensures FieldBoundAsWritten(k, m, w) == FieldBound(k, m, w)
  {
    Pow2Values();
    Pow2Monotone(w.ToU8(), 30);
  }

  /** The written bound lets a code through only for widths up to 30, where
      it is `k + m <= 2^w`. */
  lemma FieldBoundAsWrittenOk(k: int, m: int, w: CodeWord)
    requires 0 < k && 0 < m && IsI32(k) && IsI32(m)
    ensures FieldBoundAsWritten(k, m, w).Ok? <==> w.ToU8() <= 30 && k + m <= Pow2(w.ToU8())
    ensures !FieldBoundAsWritten(k, m, w).Ok? && IsI32(k + m) && w.ToU8() < 32 ==>
              FieldBoundAsWritten(k, m, w) == Err(InvalidArguments)
  {
    Pow2Values();
    if w.ToU8() <= 30 {
      Pow2Monotone(w.ToU8(), 30);
      if IsI32(k + m) {
        FieldBoundAsWrittenAgreesBelow31(k, m, w);
        FieldBoundIsPowerOfTwo(k, m, w);
      }
    } else if w.ToU8() == 31 {
      assert WrapI32(Pow2(31)) == I32_MIN;
    }
  }

  /** The discrepancy: with the written bound no code of width 32 or 31 can
      be built, although every such `k + m` is within `2^w`. */
  lemma FieldBoundAsWrittenRejectsWideWords(k: int, m: int)
    requires 0 < k && 0 < m && IsI32(k + m)
    ensures FieldBoundAsWritten(k, m, W32) == Panic
    ensures FieldBoundAsWritten(k, m, CodeWord.Other(31)) == Err(InvalidArguments)
    ensures FieldBound(k, m, W32) == Ok(()) && FieldBound(k, m, CodeWord.Other(31)) == Ok(())
  {
    Pow2Values();
    Pow2Monotone(31, 32);
    assert WrapI32(Pow2(31)) == I32_MIN;
  }

  /** The coding matrix of the chosen method; the three methods without a
      construction reach `unimplemented!()`. */
  function CodingMatrix(native: Native, codingMethod: CodingMethod, k: int, m: int, w: CodeWord): Outcome<Ptr> {
    match codingMethod
    case ReedSolVand => NonNull(native.reedSolVandermondeCodingMatrix(k, m, w))
    case Cauchy => NonNull(native.cauchyGoodGeneralCodingMatrix(k, m, w))
    case _ => Panic
  }

  /** The representation of the requested technique, derived from the coding
      matrix `mat`. The packet size is checked after the native structures
      are built. */
  function Representation(b: ErasureCodeBuilder, native: Native, tech: Technique, codingMethod: CodingMethod,
                          k: int, m: int, mat: Ptr): Outcome<TechInner>
  {
    var w := b.w;
    match tech
    case Matrix =>
      if !w.IsCanonical() then Err(NotSupported) else Ok(MatrixRep(mat))
    case BitMatrix =>
      if codingMethod == ReedSolVand then Err(NotSupported)
      else
        var bmat :- NonNull(native.matrixToBitmatrix(k, m, w, mat));
        var p :- CheckPacketSize(b.packetSize);
        Ok(BitMatrixRep(bmat, p))
    case Schedule =>
      if codingMethod == ReedSolVand then Err(NotSupported)
      else
        var bmat :- NonNull(native.matrixToBitmatrix(k, m, w, mat));
        var schedule :- NonNull(native.smartBitmatrixToSchedule(k, m, w, bmat));
        var p :- CheckPacketSize(b.packetSize);
        Ok(ScheduleRep(bmat, p, schedule))
    case ScheduleCache =>
      if codingMethod == ReedSolVand then Err(NotSupported)
      else if m != 2 then Err(NotSupported)
      else
        var bmat :- NonNull(native.matrixToBitmatrix(k, m, w, mat));
        var schedule :- NonNull(native.smartBitmatrixToSchedule(k, m, w, bmat));
        var cache :- NonNull(native.generateScheduleCache(k, m, w, bmat));
        var p :- CheckPacketSize(b.packetSize);
        Ok(ScheduleCacheRep(p, k, m, schedule, cache))
  }

  /** `ErasureCodeBuilder::build`, with the field-size bound as written (see
      `FieldBoundAsWritten`), so that no code wider than 30 bits is built. A
      built code reports the requested parameters and technique and keeps the
      validated packet size. */
  function Build(b: ErasureCodeBuilder, native: Native): (r: Outcome<ErasureCode>)
    requires b.Wf()
    ensures r.Ok? ==> r.value.Valid() && r.value.w.ToU8() <= 30
    ensures r.Ok? ==> && Some(r.value.k) == b.k && Some(r.value.m) == b.m && r.value.w == b.w
                      && Some(r.value.Tech()) == b.tech && Some(r.value.codingMethod) == b.codingMethod
    ensures r.Ok? && !r.value.tech.MatrixRep? ==> Some(r.value.tech.packetSize) == b.packetSize
  {
    var k :- Required(b.k);
    var m :- Required(b.m);
    var tech :- Required(b.tech);
    var codingMethod :- Required(b.codingMethod);
    if k <= 0 then Err(InvalidArguments)
    else if m <= 0 then Err(InvalidArguments)
    else
      FieldBoundAsWrittenOk(k, m, b.w);
      var fits :- FieldBoundAsWritten(k, m, b.w);
      var mat :- CodingMatrix(native, codingMethod, k, m, b.w);
      var rep :- Representation(b, native, tech, codingMethod, k, m, mat);
      Ok(ErasureCode(rep, k, m, b.w, codingMethod))
  }

  /** The parameter checks `build` makes before any native call. */
  ghost predicate ParametersOk(b: ErasureCodeBuilder) {
    && b.k.Some? && b.m.Some? && b.tech.Some? && b.codingMethod.Some?
    && b.k.value > 0 && b.m.value > 0 && IsI32(b.k.value + b.m.value)
    && b.w.ToU8() <= 30 && b.k.value + b.m.value <= Pow2(b.w.ToU8())
  }

  /** An independent statement of when `build` succeeds: parameters in range,
      an implemented method whose native matrix is non-null, and the
      technique's own demands, each native structure it needs being
      non-null. */
  ghost predicate Buildable(b: ErasureCodeBuilder, native: Native) {
    && ParametersOk(b)
    && var k, m, w, cm := b.k.value, b.m.value, b.w, b.codingMethod.value;
    && (cm == ReedSolVand || cm == Cauchy)
    && var mat := if cm == ReedSolVand then native.reedSolVandermondeCodingMatrix(k, m, w)
                  else native.cauchyGoodGeneralCodingMatrix(k, m, w);
    && mat.Some?
    && match b.tech.value
       case Matrix => w.IsCanonical()
       case BitMatrix =>
         && cm == Cauchy
         && native.matrixToBitmatrix(k, m, w, mat.value).Some?
         && b.packetSize.Some? && ValidPacketSize(b.packetSize.value)
       case Schedule =>
         && cm == Cauchy
         && var bmat := native.matrixToBitmatrix(k, m, w, mat.value);
         && bmat.Some? && native.smartBitmatrixToSchedule(k, m, w, bmat.value).Some?
         && b.packetSize.Some? && ValidPacketSize(b.packetSize.value)
       case ScheduleCache =>
         && cm == Cauchy && m == 2
         && var bmat := native.matrixToBitmatrix(k, m, w, mat.value);
         && bmat.Some? && native.smartBitmatrixToSchedule(k, m, w, bmat.value).Some?
         && native.generateScheduleCache(k, m, w, bmat.value).Some?
         && b.packetSize.Some? && ValidPacketSize(b.packetSize.value)
  }

  /** Parameters in range pass the written field-size bound. */
  lemma ParametersPassBound(b: ErasureCodeBuilder)
    requires b.Wf() && ParametersOk(b)
    ensures FieldBoundAsWritten(b.k.value, b.m.value, b.w) == Ok(())
  {
    FieldBoundAsWrittenOk(b.k.value, b.m.value, b.w);
  }

  lemma BuildOkIff(b: ErasureCodeBuilder, native: Native)
    requires b.Wf()
    ensures Build(b, native).Ok? <==> Buildable(b, native)
  {
    if && b.k.Some? && b.m.Some? && b.tech.Some? && b.codingMethod.Some?
       && b.k.value > 0 && b.m.value > 0 {
      FieldBoundAsWrittenOk(b.k.value, b.m.value, b.w);
    }
  }

  /** A missing field, a non-positive `k` or `m`, `k + m > 2^w`, or a width
      of 31 (whose written bound is `i32::MIN`) is `InvalidArguments` before
      any native call, whatever the natives do and whatever the method. */
  lemma BuildRejectsParameters(b: ErasureCodeBuilder, native: Native)
    requires b.Wf()
    requires || b.k.None? || b.m.None? || b.tech.None? || b.codingMethod.None?
             || b.k.value <= 0 || b.m.value <= 0
             || (&& IsI32(b.k.value + b.m.value) && b.w.ToU8() <= 31
                 && (b.w.ToU8() == 31 || b.k.value + b.m.value > Pow2(b.w.ToU8())))
    ensures Build(b, native) == Err(InvalidArguments)
  {
    if && b.k.Some? && b.m.Some? && b.tech.Some? && b.codingMethod.Some?
       && b.k.value > 0 && b.m.value > 0 {
      FieldBoundAsWrittenOk(b.k.value, b.m.value, b.w);
    }
  }

  /** With every field set and `k`, `m` positive, an `i32` overflow of
      `k + m` or a shift by 32 or more panics, before any native call. */
  lemma BuildOverflowPanics(b: ErasureCodeBuilder, native: Native)
    requires b.Wf()
    requires b.k.Some? && b.m.Some? && b.tech.Some? && b.codingMethod.Some?
    requires b.k.value > 0 && b.m.value > 0
    requires !IsI32(b.k.value + b.m.value) || b.w.ToU8() >= 32
    ensures Build(b, native) == Panic
  {
  }

  /** Liberation, Liber8tion and Blaum-Roth reach `unimplemented!()` once the
      parameters pass. */
  lemma BuildUnimplementedPanics(b: ErasureCodeBuilder, native: Native)
    requires b.Wf() && ParametersOk(b)
    requires b.codingMethod.value !in {ReedSolVand, Cauchy}
    ensures Build(b, native) == Panic
  {
    ParametersPassBound(b);
  }

  /** Once the coding matrix exists, unsupported technique / method / width
      combinations are `NotSupported`, with or without a packet size: every
      schedule-free technique but `Matrix` under Reed-Solomon Vandermonde, a
      schedule cache with `m != 2`, and `Matrix` with a non-canonical width. */
  lemma BuildNotSupported(b: ErasureCodeBuilder, native: Native)
    requires b.Wf() && ParametersOk(b)
    requires CodingMatrix(native, b.codingMethod.value, b.k.value, b.m.value, b.w).Ok?
    requires || (b.codingMethod.value == ReedSolVand && b.tech.value != Matrix)
             || (b.tech.value == ScheduleCache && b.m.value != 2)
             || (b.tech.value == Matrix && !b.w.IsCanonical())
    ensures Build(b, native) == Err(NotSupported)
  {
    ParametersPassBound(b);
  }

  /** A null coding matrix is `Other`, before the technique is looked at. */
  lemma BuildMatrixNull(b: ErasureCodeBuilder, native: Native)
    requires b.Wf() && ParametersOk(b)
    requires b.codingMethod.value in {ReedSolVand, Cauchy}
    requires CodingMatrix(native, b.codingMethod.value, b.k.value, b.m.value, b.w).Err?
    ensures Build(b, native) == Err(Error.Other)
  {
    ParametersPassBound(b);
  }

  /** For the bit-matrix techniques under Cauchy, once the native structures
      exist, `build` succeeds exactly when the packet size is valid and is
      otherwise `InvalidArguments`. */
  lemma BuildPacketSize(b: ErasureCodeBuilder, native: Native)
    requires b.Wf() && ParametersOk(b)
    requires b.codingMethod.value == Cauchy && b.tech.value != Matrix
    requires b.tech.value == ScheduleCache ==> b.m.value == 2
    requires var k, m, w, tech := b.k.value, b.m.value, b.w, b.tech.value;
             var mat := native.cauchyGoodGeneralCodingMatrix(k, m, w);
             && mat.Some?
             && var bmat := native.matrixToBitmatrix(k, m, w, mat.value);
             && bmat.Some?
             && (tech != BitMatrix ==> native.smartBitmatrixToSchedule(k, m, w, bmat.value).Some?)
             && (tech == ScheduleCache ==> native.generateScheduleCache(k, m, w, bmat.value).Some?)
    ensures Build(b, native).Ok? <==> CheckPacketSize(b.packetSize).Ok?
    ensures !Build(b, native).Ok? ==> Build(b, native) == Err(InvalidArguments)
    ensures Build(b, native).Ok? ==> Some(Build(b, native).value.tech.packetSize) == b.packetSize
  {
    ParametersPassBound(b);
  }

  /** Under Cauchy, a null bit-matrix, schedule or schedule cache among the
      structures the technique needs is `Other`, whatever the packet size:
      the packet size is checked only once they all exist. */
  lemma BuildDerivedNull(b: ErasureCodeBuilder, native: Native)
    requires b.Wf() && ParametersOk(b)
    requires b.codingMethod.value == Cauchy && b.tech.value != Matrix
    requires b.tech.value == ScheduleCache ==> b.m.value == 2
    requires var k, m, w, tech := b.k.value, b.m.value, b.w, b.tech.value;
             var mat := native.cauchyGoodGeneralCodingMatrix(k, m, w);
             && mat.Some?
             && var bmat := native.matrixToBitmatrix(k, m, w, mat.value);
             || bmat.None?
             || (tech != BitMatrix && native.smartBitmatrixToSchedule(k, m, w, bmat.value).None?)
             || (tech == ScheduleCache && native.generateScheduleCache(k, m, w, bmat.value).None?)
    ensures Build(b, native) == Err(Error.Other)
  {
    ParametersPassBound(b);
  }

  /** Natives that always succeed, for the concrete scenarios below. */
  function AlwaysSucceeds(): Native {
    Native(
      (k, m, w) => Some(Ptr(1)),
      (k, m, w) => Some(Ptr(2)),
      (k, m, w, p) => Some(Ptr(3)),
      (k, m, w, p) => Some(Ptr(4)),
      (k, m, w, p) => Some(Ptr(5)))
  }

  function Request(codingMethod: CodingMethod, k: int, m: int, tech: Technique, packetSize: Option<int>): ErasureCodeBuilder {
    NewBuilder().(codingMethod := Some(codingMethod), k := Some(k), m := Some(m), tech := Some(tech),
                  packetSize := packetSize)
  }

  /** The construction scenarios of the integration tests. */
  lemma BuildTestScenarios()
    ensures Build(Request(ReedSolVand, 4, 2, Matrix, None), AlwaysSucceeds()).Ok?
    ensures Build(Request(ReedSolVand, 4, 2, BitMatrix, None), AlwaysSucceeds()) == Err(NotSupported)
    ensures Build(Request(ReedSolVand, 4, 2, Schedule, None), AlwaysSucceeds()) == Err(NotSupported)
    ensures Build(Request(ReedSolVand, 4, 2, ScheduleCache, None), AlwaysSucceeds()) == Err(NotSupported)
    ensures Build(Request(ReedSolVand, 4, 2, Matrix, None).(w := CodeWord.Other(12)), AlwaysSucceeds())
            == Err(NotSupported)
    ensures Build(Request(Cauchy, -1, 2, Matrix, None), AlwaysSucceeds()) == Err(InvalidArguments)
    ensures Build(Request(Cauchy, 4, -1, Matrix, None), AlwaysSucceeds()) == Err(InvalidArguments)
    ensures Build(Request(Cauchy, 255, 2, Matrix, None), AlwaysSucceeds()) == Err(InvalidArguments)
    ensures Build(Request(Cauchy, 4, 2, BitMatrix, Some(-1)), AlwaysSucceeds()) == Err(InvalidArguments)
    ensures Build(Request(Cauchy, 4, 2, Schedule, Some(42)), AlwaysSucceeds()) == Err(InvalidArguments)
    ensures Build(Request(Cauchy, 4, 3, ScheduleCache, Some(128)), AlwaysSucceeds()) == Err(NotSupported)
    ensures Build(Request(Cauchy, 4, 2, ScheduleCache, Some(42)), AlwaysSucceeds()) == Err(InvalidArguments)
    ensures Build(Request(Cauchy, 4, 2, BitMatrix, Some(128)), AlwaysSucceeds()).Ok?
    ensures Build(Request(Cauchy, 4, 2, Schedule, Some(128)), AlwaysSucceeds()).Ok?
    ensures Build(Request(Cauchy, 4, 2, ScheduleCache, Some(128)), AlwaysSucceeds()).Ok?
  {
  }

  /** The inputs of the field-size finding, through `build`: width 32 panics
      and width 31 is rejected, even with natives that always succeed. */
  lemma BuildWideWordScenarios()
    ensures Build(Request(Cauchy, 4, 2, Matrix, None).(w := W32), AlwaysSucceeds()) == Panic
    ensures Build(Request(Cauchy, 1, 1, Matrix, None).(w := CodeWord.Other(31)), AlwaysSucceeds())
            == Err(InvalidArguments)
  {
    FieldBoundAsWrittenOk(1, 1, CodeWord.Other(31));
  }
}

=== FILE: codec.dfy ===
/**
 * The per-call validation of `ErasureCode::encode` and `ErasureCode::decode`:
 * the buffer shape check, the sanitising of the erasure list and the choice
 * of native routine. Everything here happens before any buffer is handed to
 * the native library; what the native routines write into the buffers is not
 * part of the model, so each operation returns the native call it issues.
 */
module Codec {
  import opened Common
  import opened Builder

  type Block = seq<byte>

  /** A block the shape check lets through: aligned and of the common length. */
  predicate Fits(block: Block, len: nat) {
    Aligned(|block|) && |block| == len
  }

  /** The error for a block that does not fit: alignment is looked at first. */
  function MisfitError(block: Block, len: nat): Error {
    if !Aligned(|block|) then NotAligned(|block|) else InvalidArguments
  }

  /** Block `i` is the first one that does not fit. */
  predicate FirstMisfit(blocks: seq<Block>, len: nat, i: nat) {
    && i < |blocks|
    && !Fits(blocks[i], len)
    && forall j | 0 <= j < i :: Fits(blocks[j], len)
  }

  /** One of the `for` loops of the buffer check: the blocks are visited in
      order and the first misfit decides the error. */
  function Scan(blocks: seq<Block>, len: nat): (r: Outcome<nat>)
    ensures r.Ok? <==> forall i | 0 <= i < |blocks| :: Fits(blocks[i], len)
    ensures r.Ok? ==> r.value == len
    ensures !r.Ok? ==> exists i: nat :: FirstMisfit(blocks, len, i) && r == Err(MisfitError(blocks[i], len))
  {
    if |blocks| == 0 then Ok(len)
    else if !Aligned(|blocks[0]|) then Err(NotAligned(|blocks[0]|))
    else if |blocks[0]| != len then Err(InvalidArguments)
    else
      var r := Scan(blocks[1..], len);
      assert !r.Ok? ==> exists i: nat :: FirstMisfit(blocks, len, i) && r == Err(MisfitError(blocks[i], len)) by {
        if !r.Ok? {
          var i: nat :| FirstMisfit(blocks[1..], len, i) && r == Err(MisfitError(blocks[1..][i], len));
          assert FirstMisfit(blocks, len, i + 1);
        }
      }
      r
  }

  /** `check_encode_buffer` and `check_decode_buffer` (identical checks): `k`
      data blocks and `m` parity blocks, then every block, data first, aligned
      and as long as the first data block. Returns that common length. */
  function CheckBuffers(code: ErasureCode, data: seq<Block>, parity: seq<Block>): (r: Outcome<nat>)
    requires code.Valid()
    ensures |data| != code.k ==> r == Err(InvalidArguments)
    ensures |data| == code.k && |parity| != code.m ==> r == Err(InvalidArguments)
    ensures r.Ok? <==> && |data| == code.k && |parity| == code.m
                       && forall i | 0 <= i < |data + parity| :: Fits((data + parity)[i], |data[0]|)
    ensures r.Ok? ==> r.value == |data[0]|
    ensures |data| == code.k && |parity| == code.m && !r.Ok? ==>
              exists i: nat :: FirstMisfit(data + parity, |data[0]|, i)
                               && r == Err(MisfitError((data + parity)[i], |data[0]|))
  {
    if |data| != code.k then Err(InvalidArguments)
    else if |parity| != code.m then Err(InvalidArguments)
    else
      var len := |data[0]|;
      var all := data + parity;
      var r := Scan(data, len);
      if !r.Ok? then
        var i: nat :| FirstMisfit(data, len, i) && r == Err(MisfitError(data[i], len));
        assert FirstMisfit(all, len, i);
        r
      else
        var r' := Scan(parity, len);
        assert !r'.Ok? ==> exists i: nat :: FirstMisfit(all, len, i) && r' == Err(MisfitError(all[i], len)) by {
          if !r'.Ok? {
            var i: nat :| FirstMisfit(parity, len, i) && r' == Err(MisfitError(parity[i], len));
            assert FirstMisfit(all, len, |data| + i);
          }
        }
        assert r'.Ok? ==> forall i | 0 <= i < |all| :: Fits(all[i], len) by {
          if r'.Ok? {
            forall i | 0 <= i < |all|
              ensures Fits(all[i], len)
            {
              if i >= |data| {
                assert all[i] == parity[i - |data|];
              }
            }
          }
        }
        r'
  }

  /** A strictly increasing sequence: sorted and free of duplicates. */
  predicate StrictlyIncreasing(s: seq<int>) {
    forall i, j | 0 <= i < j < |s| :: s[i] < s[j]
  }

  /** Inserts `x` into a strictly increasing sequence, unless already there. */
  function Insert(s: seq<int>, x: int): (r: seq<int>)
    requires StrictlyIncreasing(s)
    ensures StrictlyIncreasing(r)
    ensures forall y :: y in r <==> y in s || y == x
  {
    if |s| == 0 then [x]
    else if x < s[0] then [x] + s
    else if x == s[0] then s
    else
      var tail := Insert(s[1..], x);
      assert forall y :: y in s <==> y == s[0] || y in s[1..];
      assert forall j | 0 <= j < |tail| :: s[0] < tail[j] by {
        forall j | 0 <= j < |tail|
          ensures s[0] < tail[j]
        {
          assert tail[j] in tail;
          if tail[j] != x {
            var i :| 0 <= i < |s[1..]| && s[1..][i] == tail[j];
            assert s[i + 1] == tail[j];
          }
        }
      }
      var r := [s[0]] + tail;
      assert forall i, j | 0 <= i < j < |r| :: r[i] < r[j] by {
        forall i, j | 0 <= i < j < |r|
          ensures r[i] < r[j]
        {
          if i > 0 {
            assert r[i] == tail[i - 1] && r[j] == tail[j - 1];
          }
        }
      }
      r
  }

  /** `iter().sorted().dedup()`: the distinct values of `s` in increasing
      order. */
  function SortDedup(s: seq<int>): (r: seq<int>)
    ensures StrictlyIncreasing(r)
    ensures forall x :: x in r <==> x in s
  {
    if |s| == 0 then []
    else
      var front := SortDedup(s[..|s| - 1]);
      assert forall x :: x in s <==> x in s[..|s| - 1] || x == s[|s| - 1];
      Insert(front, s[|s| - 1])
  }

  /** Two strictly increasing sequences with the same values are equal: the
      sorted, deduplicated list depends only on the set of values. */
  lemma {:induction false} StrictlyIncreasingUnique(a: seq<int>, b: seq<int>)
    requires StrictlyIncreasing(a) && StrictlyIncreasing(b)
    requires forall x :: x in a <==> x in b
    ensures a == b
    decreases |a|
  {
    if |a| != 0 {
      assert a[0] in a;
    }
    if |b| != 0 {
      assert b[0] in b;
    }
    if |a| != 0 && |b| != 0 {
      assert forall j | 0 <= j < |a| :: a[0] <= a[j];
      assert forall j | 0 <= j < |b| :: b[0] <= b[j];
      assert a[0] in b && b[0] in a;
      assert a[0] == b[0];
      forall x
        ensures x in a[1..] <==> x in b[1..]
      {
        if x in a[1..] {
          var j :| 1 <= j < |a| && a[j] == x;
          assert x in b && x != b[0];
        }
        if x in b[1..] {
          var j :| 1 <= j < |b| && b[j] == x;
          assert x in a && x != a[0];
        }
      }
      StrictlyIncreasingUnique(a[1..], b[1..]);
      assert a == [a[0]] + a[1..];
      assert b == [b[0]] + b[1..];
    }
  }

  /** The number of distinct values in `s`. */
  function DistinctCount(s: seq<int>): nat {
    |set x | x in s|
  }

  /** A strictly increasing sequence has as many distinct values as elements. */
  lemma {:induction false} StrictlyIncreasingCount(s: seq<int>)
    requires StrictlyIncreasing(s)
    ensures |set x | x in s| == |s|
    decreases |s|
  {
    if |s| != 0 {
      StrictlyIncreasingCount(s[1..]);
      var rest := set x | x in s[1..];
      assert (set x | x in s) == {s[0]} + rest;
      assert s[0] !in rest;
    }
  }

  /** The sanitising of `decode`'s erasure list: sorted and deduplicated,
      every index in `[0, k + m)`, at most `m` distinct indices, and a `-1`
      terminator appended. */
  function SanitiseErasures(erased: seq<int>, k: int, m: int): (r: Outcome<seq<int>>)
    ensures r == Err(InvalidArguments) <==> exists i | 0 <= i < |erased| :: !(0 <= erased[i] < k + m)
    ensures r == Err(TooManyErased(DistinctCount(erased), m)) <==>
              (forall i | 0 <= i < |erased| :: 0 <= erased[i] < k + m) && DistinctCount(erased) > m
    ensures r.Ok? <==> (forall i | 0 <= i < |erased| :: 0 <= erased[i] < k + m) && DistinctCount(erased) <= m
    ensures r.Ok? ==> && |r.value| == DistinctCount(erased) + 1
                      && r.value[|r.value| - 1] == -1
                      && StrictlyIncreasing(r.value[..|r.value| - 1])
                      && forall x :: x in r.value[..|r.value| - 1] <==> x in erased
  {
    var sorted := SortDedup(erased);
    StrictlyIncreasingCount(sorted);
    assert (set x | x in sorted) == (set x | x in erased);
    if exists i | 0 <= i < |sorted| :: !(0 <= sorted[i] < k + m) then
      assert exists i | 0 <= i < |erased| :: !(0 <= erased[i] < k + m) by {
        var i :| 0 <= i < |sorted| && !(0 <= sorted[i] < k + m);
        assert sorted[i] in erased;
      }
      Err(InvalidArguments)
    else
      assert forall i | 0 <= i < |erased| :: 0 <= erased[i] < k + m by {
        forall i | 0 <= i < |erased|
          ensures 0 <= erased[i] < k + m
        {
          assert erased[i] in sorted;
        }
      }
      var list := sorted + [-1];
      if |list| - 1 > m then Err(TooManyErased(|list| - 1, m))
      else
        assert list[..|list| - 1] == sorted;
        Ok(list)
  }

  /** The order and the repetitions of the erased indices do not matter. */
  lemma SanitiseErasuresDependsOnSetOnly(erased: seq<int>, erased': seq<int>, k: int, m: int)
    requires forall x :: x in erased <==> x in erased'
    ensures SanitiseErasures(erased, k, m) == SanitiseErasures(erased', k, m)
  {
    StrictlyIncreasingUnique(SortDedup(erased), SortDedup(erased'));
  }

  /** `row_k_ones`: 1 exactly for Reed-Solomon Vandermonde, whose first parity
      row is all ones. */
  function RowKOnes(codingMethod: CodingMethod): (r: int)
    ensures r == 1 <==> codingMethod == ReedSolVand
    ensures r == 0 <==> codingMethod != ReedSolVand
  {
    if codingMethod == ReedSolVand then 1 else 0
  }

  /** The native encode routine `encode` calls, with the block size. */
  datatype EncodeCall =
    | MatrixEncode(mat: Ptr, size: nat)
    | BitmatrixEncode(bmat: Ptr, size: nat, packetSize: int)
    | ScheduleEncode(schedule: Ptr, size: nat, packetSize: int)

  /** `encode(data, parity)` up to the native call. The data blocks are only
      read: the native routine writes the parity blocks alone. */
  function Encode(code: ErasureCode, data: seq<Block>, parity: seq<Block>): (r: Outcome<EncodeCall>)
    requires code.Valid()
    ensures !CheckBuffers(code, data, parity).Ok? ==> r == CheckBuffers(code, data, parity).PropagateFailure()
    ensures CheckBuffers(code, data, parity).Ok? ==>
              if CheckBuffers(code, data, parity).value <= I32_MAX then r.Ok? else r.Panic?
    ensures r.Ok? ==> && CheckBuffers(code, data, parity) == Ok(r.value.size)
                      && r.value.size <= I32_MAX
    ensures r.Ok? ==> match code.tech
                      case MatrixRep(mat) => r.value == MatrixEncode(mat, |data[0]|)
                      case BitMatrixRep(bmat, p) => r.value == BitmatrixEncode(bmat, |data[0]|, p)
                      case ScheduleRep(_, p, schedule) => r.value == ScheduleEncode(schedule, |data[0]|, p)
                      case ScheduleCacheRep(p, _, _, schedule, _) => r.value == ScheduleEncode(schedule, |data[0]|, p)
  {
    var len :- CheckBuffers(code, data, parity);
    if len > I32_MAX then Panic
    else
      match code.tech
      case MatrixRep(mat) => Ok(MatrixEncode(mat, len))
      case BitMatrixRep(bmat, p) => Ok(BitmatrixEncode(bmat, len, p))
      case ScheduleRep(_, p, schedule) => Ok(ScheduleEncode(schedule, len, p))
      case ScheduleCacheRep(p, _, _, schedule, _) => Ok(ScheduleEncode(schedule, len, p))
  }

  /** The native decode routine `decode` calls, with the sanitised erasure
      list and the block size. The lazy schedule decoder is called with its
      `smart` flag set and no `row_k_ones`. */
  datatype DecodeCall =
    | MatrixDecode(mat: Ptr, rowKOnes: int, erasures: seq<int>, size: nat)
    | BitmatrixDecode(bmat: Ptr, rowKOnes: int, erasures: seq<int>, size: nat, packetSize: int)
    | ScheduleDecodeLazy(bmat: Ptr, erasures: seq<int>, size: nat, packetSize: int, smart: int)
    | ScheduleDecodeCache(cache: Ptr, erasures: seq<int>, size: nat, packetSize: int)

  /** The call `decode` makes for a valid erasure list and block size. */
  function DecodeCallFor(code: ErasureCode, erasures: seq<int>, len: nat): DecodeCall {
    var rowKOnes := RowKOnes(code.codingMethod);
    match code.tech
    case MatrixRep(mat) => MatrixDecode(mat, rowKOnes, erasures, len)
    case BitMatrixRep(bmat, p) => BitmatrixDecode(bmat, rowKOnes, erasures, len, p)
    case ScheduleRep(bmat, p, _) => ScheduleDecodeLazy(bmat, erasures, len, p, 1)
    case ScheduleCacheRep(p, _, _, _, cache) => ScheduleDecodeCache(cache, erasures, len, p)
  }

  /** `decode(data, parity, erased)` up to and including the status of the
      native call, given as the oracle `status`: erasure list first (range,
      then count), buffers second, and a nonzero status reported as `Other`. */
  function Decode(code: ErasureCode, data: seq<Block>, parity: seq<Block>, erased: seq<int>,
                  status: (DecodeCall, seq<Block>, seq<Block>) -> int): (r: Outcome<DecodeCall>)
    requires code.Valid()
    ensures (exists i | 0 <= i < |erased| :: !(0 <= erased[i] < code.k + code.m)) ==> r == Err(InvalidArguments)
    ensures SanitiseErasures(erased, code.k, code.m).Ok? && !CheckBuffers(code, data, parity).Ok? ==>
              r == CheckBuffers(code, data, parity).PropagateFailure()
    ensures r.Ok? ==> && SanitiseErasures(erased, code.k, code.m) == Ok(r.value.erasures)
                      && CheckBuffers(code, data, parity) == Ok(r.value.size)
                      && r.value.size <= I32_MAX
                      && r.value == DecodeCallFor(code, r.value.erasures, |data[0]|)
                      && status(r.value, data, parity) == 0
    ensures SanitiseErasures(erased, code.k, code.m).Ok? && CheckBuffers(code, data, parity).Ok? ==>
              var erasures, len := SanitiseErasures(erased, code.k, code.m).value, CheckBuffers(code, data, parity).value;
              if len > I32_MAX then r.Panic?
              else if status(DecodeCallFor(code, erasures, len), data, parity) == 0 then r.Ok?
              else r == Err(Error.Other)
    ensures r.Ok? && !code.tech.ScheduleRep? && !code.tech.ScheduleCacheRep? ==>
              (r.value.rowKOnes == 1 <==> code.codingMethod == ReedSolVand)
  {
    var erasures :- SanitiseErasures(erased, code.k, code.m);
    var len :- CheckBuffers(code, data, parity);
    if len > I32_MAX then Panic
    else
      var call := DecodeCallFor(code, erasures, len);
      if status(call, data, parity) != 0 then Err(Error.Other) else Ok(call)
  }

  /** Too many distinct erasures are reported before the buffers are looked
      at; repeated indices count once. */
  lemma DecodeTooManyErased(code: ErasureCode, data: seq<Block>, parity: seq<Block>, erased: seq<int>,
                            status: (DecodeCall, seq<Block>, seq<Block>) -> int)
    requires code.Valid()
    requires forall i | 0 <= i < |erased| :: 0 <= erased[i] < code.k + code.m
    requires DistinctCount(erased) > code.m
    ensures Decode(code, data, parity, erased, status) == Err(TooManyErased(DistinctCount(erased), code.m))
  {
  }

  /** A negative index and the index k + m are out of range (k = 4, m = 2). */
  lemma SanitiseErasuresOutOfRange()
    ensures SanitiseErasures([-1], 4, 2) == Err(InvalidArguments)
    ensures SanitiseErasures([6], 4, 2) == Err(InvalidArguments)
  {
  }

  /** Erasing {0, 4, 5} with m = 2 is one erasure too many. */
  lemma SanitiseErasuresTooMany()
    ensures SanitiseErasures([0, 4, 5], 4, 2) == Err(TooManyErased(3, 2))
  {
    var three: seq<int> := [0, 4, 5];
    assert forall i | 0 <= i < |three| :: 0 <= three[i] < 4 + 2;
    assert forall x :: x in three <==> x == 0 || x == 4 || x == 5;
    assert (set x | x in three) == {0, 4, 5};
    assert DistinctCount(three) == 3;
  }
}

=== FILE: common.dfy ===
/**
 * Shared vocabulary of the jerasure binding: the error kinds it reports, the
 * outcome of a call (including a Rust panic), the field width `CodeWord`, the
 * 32-bit integer range of the C interface and the machine alignment unit.
 */
module Common {

  /** Error kinds reported by the binding. `Other` stands for every failure
      signalled by the native library (a null pointer or a nonzero status). */
  datatype Error =
    | InvalidArguments
    | NotAligned(len: nat)
    | NotSupported
    | TooManyErased(count: int, m: int)
    | Other

  /** The end of a call: a value, a reported error, or a panic (which in Rust
      unwinds instead of returning). Failure-compatible, so `:-` propagates
      both `Err` and `Panic`. */
  datatype Outcome<+T> = Ok(value: T) | Err(error: Error) | Panic {

    predicate IsFailure() {
      !Ok?
    }

    function PropagateFailure<U>(): Outcome<U>
      requires IsFailure()
    {
      match this
      case Err(e) => Err(e)
      case Panic => Panic
    }

    function Extract(): T
      requires Ok?
    {
      value
    }
  }

  datatype Option<+T> = None | Some(value: T)

  /** Bounds of Rust's `i32` (the C `int` of the native interface). */
  const I32_MIN: int := -0x8000_0000
  const I32_MAX: int := 0x7fff_ffff

  predicate IsI32(x: int) {
    I32_MIN <= x <= I32_MAX
  }

  /** Two's complement wrap-around of an integer into the `i32` range. */
  function WrapI32(x: int): (r: int)
    ensures IsI32(r)
    ensures (r - x) % 0x1_0000_0000 == 0
    ensures IsI32(x) ==> r == x
  {
    (x - I32_MIN) % 0x1_0000_0000 + I32_MIN
  }

  function Pow2(n: nat): (r: nat)
    ensures r > 0
  {
    if n == 0 then 1 else 2 * Pow2(n - 1)
  }

  /** The powers of two the `i32` bounds are made of. */
  lemma Pow2Values()
    ensures Pow2(8) == 0x100 && Pow2(16) == 0x1_0000
    ensures Pow2(30) == 0x4000_0000 && Pow2(31) == 0x8000_0000 && Pow2(32) == 0x1_0000_0000
  {
    assert Pow2(8) == 0x100;
    assert Pow2(16) == 0x1_0000;
    assert Pow2(24) == 0x100_0000;
    assert Pow2(30) == 0x4000_0000;
  }

  /** `size_of::<c_long>()`: 8 bytes on LP64 platforms, 4 on ILP32 and LLP64.
      The constant is left open between the two, so that every fact proved
      here holds on both kinds of platform. */
  type LongSize = n: nat | n == 4 || n == 8 witness 8

  const MACHINE_LONG_SIZE: LongSize

  /** A buffer length the native region routines accept. */
  predicate Aligned(n: nat) {
    n % MACHINE_LONG_SIZE == 0
  }

  type u8 = n: nat | n < 256

  type byte = bv8

  /** Field width in bits. The three canonical widths have dedicated
      region-multiply routines; `Other(n)` carries any other `u8` value. */
  datatype CodeWord = W8 | W16 | W32 | Other(n: u8) {

    function ToU8(): u8 {
      match this
      case W8 => 8
      case W16 => 16
      case W32 => 32
      case Other(n) => n
    }

    predicate IsCanonical() {
      !Other?
    }
  }
}

=== FILE: galois.dfy ===
/**
 * The Rust side of `GaloisField`: the width check of the constructor, scalar
 * addition, and the validation and dispatch of the region routines. Scalar
 * multiply, divide and inverse and the per-width region-multiply kernels live
 * in the native library and are not part of this model.
 */
module Galois {
  import opened Common

  /** A handle bound to one field width. */
  datatype GaloisField = GaloisField(w: CodeWord)

  /** Field widths the native library can initialise. */
  predicate SupportedWidth(w: CodeWord) {
    1 <= w.ToU8() <= 32
  }

  /** `try_from_code_word`: refuses widths outside 1..=32 and otherwise binds
      a handle to the requested width (the native field initialisation it
      triggers is a side effect that is not modelled). */
  function TryFromCodeWord(w: CodeWord): (r: Option<GaloisField>)
    ensures r.None? <==> w.ToU8() == 0 || w.ToU8() > 32
    ensures r.Some? ==> r.value.w == w && SupportedWidth(r.value.w)
  {
    var bits := w.ToU8();
    if bits == 0 || bits > 32 then None else Some(GaloisField(w))
  }

  /** Every canonical width yields a field; 0 and 33 do not. */
  lemma TryFromCodeWordExamples()
    ensures TryFromCodeWord(W8).Some? && TryFromCodeWord(W16).Some? && TryFromCodeWord(W32).Some?
    ensures TryFromCodeWord(CodeWord.Other(0)).None? && TryFromCodeWord(CodeWord.Other(33)).None?
    ensures forall n: u8 :: 1 <= n <= 32 ==> TryFromCodeWord(CodeWord.Other(n)).Some?
  {
  }

  /** Bit `i` of a 32-bit word is set. */
  predicate BitSet(x: bv32, i: bv32)
    requires i < 32
  {
    x & (1 << i) != 0
  }

  /** Bit `i` of a 32-bit word, as a coefficient 0 or 1. */
  function Bit(x: bv32, i: bv32): (b: nat)
    requires i < 32
    ensures b <= 1
  {
    if BitSet(x, i) then 1 else 0
  }

  /** A bit of an exclusive or is set exactly when one operand's bit is. */
  lemma XorBit(a: bv32, b: bv32, i: bv32)
    requires i < 32
    ensures BitSet(a ^ b, i) <==> BitSet(a, i) != BitSet(b, i)
  {
  }

  /** Field addition of two elements, given as the bit patterns of their
      `i32` representation: the elements are polynomials over GF(2) and are
      added coefficient by coefficient modulo 2. */
  function Add(a: bv32, b: bv32): (r: bv32)
    ensures forall i: bv32 | i < 32 :: Bit(r, i) == (Bit(a, i) + Bit(b, i)) % 2
  {
    forall i: bv32 | i < 32
      ensures Bit(a ^ b, i) == (Bit(a, i) + Bit(b, i)) % 2
    {
      XorBit(a, b, i);
    }
    a ^ b
  }

  lemma AddLaws(a: bv32, b: bv32, c: bv32)
    ensures Add(a, b) == Add(b, a)
    ensures Add(a, 0) == a
    ensures Add(a, a) == 0
    ensures Add(Add(a, b), c) == Add(a, Add(b, c))
  {
  }

  lemma AddDocExample()
    ensures Add(24, 54) == 46
  {
  }

  /** `galois_region_xor(src, dest, n)` of the native library: every byte of
      `dest` is XOR-ed with the byte of `src` at the same offset. */
  function RegionXor(src: seq<byte>, dest: seq<byte>): (r: seq<byte>)
    requires |src| == |dest|
    ensures |r| == |dest|
    ensures forall i | 0 <= i < |r| :: r[i] == dest[i] ^ src[i]
  {
    if |src| == 0 then []
    else [dest[0] ^ src[0]] + RegionXor(src[1..], dest[1..])
  }

  /** `region_add(a, b, out)`: the new contents of `out`. The lengths of `a`
      and `b`, then of `out`, must agree before alignment is looked at; the
      byte count is finally converted to a C `int`, which panics beyond
      `i32::MAX`. */
  function RegionAdd(a: seq<byte>, b: seq<byte>, out: seq<byte>): (r: Outcome<seq<byte>>)
    ensures r == Err(InvalidArguments) <==> |a| != |b| || |out| != |a|
    ensures r == Err(NotAligned(|a|)) <==> |a| == |b| == |out| && !Aligned(|a|)
    ensures r.Panic? <==> |a| == |b| == |out| && Aligned(|a|) && |a| > I32_MAX
    ensures r.Ok? <==> |a| == |b| == |out| && Aligned(|a|) && |a| <= I32_MAX
    ensures r.Ok? ==> |r.value| == |out| && forall i | 0 <= i < |a| :: r.value[i] == a[i] ^ b[i]
  {
    var n := |a|;
    if n != |b| then Err(InvalidArguments)
    else if n != |out| then Err(InvalidArguments)
    else if !Aligned(n) then Err(NotAligned(n))
    else if n > I32_MAX then Panic
    else Ok(RegionXor(a, b))
  }

  /** `region_acc(buf, acc)`: the new contents of `buf`. */
  function RegionAcc(buf: seq<byte>, acc: seq<byte>): (r: Outcome<seq<byte>>)
    ensures r == Err(InvalidArguments) <==> |acc| != |buf|
    ensures r == Err(NotAligned(|acc|)) <==> |acc| == |buf| && !Aligned(|acc|)
    ensures r.Panic? <==> |acc| == |buf| && Aligned(|acc|) && |acc| > I32_MAX
    ensures r.Ok? <==> |acc| == |buf| && Aligned(|acc|) && |acc| <= I32_MAX
    ensures r.Ok? ==> |r.value| == |buf| && forall i | 0 <= i < |buf| :: r.value[i] == buf[i] ^ acc[i]
  {
    var n := |acc|;
    if n != |buf| then Err(InvalidArguments)
    else if !Aligned(n) then Err(NotAligned(n))
    else if n > I32_MAX then Panic
    else Ok(RegionXor(acc, buf))
  }

  /** Accumulating into `buf` is adding `buf` and `acc` into `buf`, error cases
      included. */
  lemma RegionAccIsRegionAdd(buf: seq<byte>, acc: seq<byte>)
    ensures RegionAcc(buf, acc) == RegionAdd(buf, acc, buf)
  {
    if |buf| == |acc| && Aligned(|acc|) && |acc| <= I32_MAX {
      var x := RegionAcc(buf, acc).value;
      var y := RegionAdd(buf, acc, buf).value;
      assert forall i | 0 <= i < |x| :: x[i] == y[i];
      assert x == y;
    }
  }

  /** Region addition does not depend on the order of its operands. */
  lemma RegionAddCommutes(a: seq<byte>, b: seq<byte>, out: seq<byte>)
    ensures RegionAdd(a, b, out) == RegionAdd(b, a, out)
  {
    if |a| == |b| == |out| && Aligned(|a|) && |a| <= I32_MAX {
      var x := RegionAdd(a, b, out).value;
      var y := RegionAdd(b, a, out).value;
      assert forall i | 0 <= i < |x| :: x[i] == y[i];
      assert x == y;
    }
  }

  /** Accumulating the same region twice restores the buffer. */
  lemma RegionAccTwiceRestores(buf: seq<byte>, acc: seq<byte>)
    requires RegionAcc(buf, acc).Ok?
    ensures RegionAcc(RegionAcc(buf, acc).value, acc) == Ok(buf)
  {
    var once := RegionAcc(buf, acc).value;
    var twice := RegionAcc(once, acc).value;
    assert forall i | 0 <= i < |buf| :: twice[i] == buf[i];
    assert twice == buf;
  }

  /** The eight-byte XOR vector of the unit tests. */
  lemma RegionAddTestVector()
    ensures RegionAdd([0xc4, 0xfa, 0x87, 0xee, 0x9a, 0x57, 0xcd, 0x56],
                      [0x9a, 0x57, 0xcd, 0x56, 0xc4, 0xfa, 0x87, 0xee],
                      [0, 0, 0, 0, 0, 0, 0, 0])
            == Ok([0x5e, 0xad, 0x4a, 0xb8, 0x5e, 0xad, 0x4a, 0xb8])
    ensures RegionAcc([0xc4, 0xfa, 0x87, 0xee, 0x9a, 0x57, 0xcd, 0x56],
                      [0x9a, 0x57, 0xcd, 0x56, 0xc4, 0xfa, 0x87, 0xee])
            == Ok([0x5e, 0xad, 0x4a, 0xb8, 0x5e, 0xad, 0x4a, 0xb8])
  {
    var a: seq<byte> := [0xc4, 0xfa, 0x87, 0xee, 0x9a, 0x57, 0xcd, 0x56];
    var b: seq<byte> := [0x9a, 0x57, 0xcd, 0x56, 0xc4, 0xfa, 0x87, 0xee];
    var expected: seq<byte> := [0x5e, 0xad, 0x4a, 0xb8, 0x5e, 0xad, 0x4a, 0xb8];
    assert Aligned(8);
    var x := RegionAdd(a, b, [0, 0, 0, 0, 0, 0, 0, 0]).value;
    assert forall i | 0 <= i < 8 :: x[i] == expected[i];
    assert x == expected;
    var y := RegionAcc(a, b).value;
    assert forall i | 0 <= i < 8 :: y[i] == expected[i];
    assert y == expected;
  }

  /** The native kernel a region multiply is handed to. */
  datatype Kernel = W08RegionMultiply | W16RegionMultiply | W32RegionMultiply

  /** What `region_multiply` passes to the native kernel. The bytes it writes
      into `dest` are decided by the kernel and are not modelled. */
  datatype RegionMultiplyCall = RegionMultiplyCall(kernel: Kernel, multiplyBy: int, bytes: nat, add: int)

  function KernelWidth(kernel: Kernel): CodeWord {
    match kernel
    case W08RegionMultiply => W8
    case W16RegionMultiply => W16
    case W32RegionMultiply => W32
  }

  /** `region_multiply(src, multiply_by, add, dest)` up to the native call:
      length mismatch, then misalignment, then a non-canonical width. A
      non-canonical width is reported as `NotSupported`; it does not panic. */
  function RegionMultiply(gf: GaloisField, src: seq<byte>, multiplyBy: int, add: int, dest: seq<byte>)
    : (r: Outcome<RegionMultiplyCall>)
    ensures r == Err(InvalidArguments) <==> |src| != |dest|
    ensures r == Err(NotAligned(|src|)) <==> |src| == |dest| && !Aligned(|src|)
    ensures r == Err(NotSupported) <==> |src| == |dest| && Aligned(|src|) && !gf.w.IsCanonical()
    ensures r.Panic? <==> |src| == |dest| && Aligned(|src|) && gf.w.IsCanonical() && |src| > I32_MAX
    ensures r.Ok? <==> |src| == |dest| && Aligned(|src|) && gf.w.IsCanonical() && |src| <= I32_MAX
    ensures r.Ok? ==> KernelWidth(r.value.kernel) == gf.w && r.value.bytes == |src|
                      && r.value.multiplyBy == multiplyBy && r.value.add == add
  {
    var n := |src|;
    if n != |dest| then Err(InvalidArguments)
    else if !Aligned(n) then Err(NotAligned(n))
    else
      var kernel :- match gf.w
        case W8 => Ok(W08RegionMultiply)
        case W16 => Ok(W16RegionMultiply)
        case W32 => Ok(W32RegionMultiply)
        case Other(_) => Err(NotSupported);
      if n > I32_MAX then Panic
      else Ok(RegionMultiplyCall(kernel, multiplyBy, n, add))
  }

  /** Every width a field can be created with, 1 to 32, has a region
      multiply only when it is 8, 16 or 32: on valid buffers the other widths
      are `NotSupported`. */
  lemma RegionMultiplyFieldWidths(w: CodeWord, src: seq<byte>, multiplyBy: int, add: int, dest: seq<byte>)
    requires TryFromCodeWord(w).Some?
    requires |src| == |dest| && Aligned(|src|) && |src| <= I32_MAX
    ensures RegionMultiply(TryFromCodeWord(w).value, src, multiplyBy, add, dest).Ok? <==> w.IsCanonical()
    ensures !w.IsCanonical() ==>
              RegionMultiply(TryFromCodeWord(w).value, src, multiplyBy, add, dest) == Err(NotSupported)
  {
  }

  /** For a canonical width, `region_multiply(src, _, _, dest)` validates its
      buffers as `region_acc(dest, src)` does: both fail on exactly the same
      inputs and with the same error or panic. */
  lemma RegionMultiplyValidatesLikeRegionAcc(gf: GaloisField, src: seq<byte>, multiplyBy: int, add: int,
                                             dest: seq<byte>)
    requires gf.w.IsCanonical()
    ensures RegionMultiply(gf, src, multiplyBy, add, dest).Ok? <==> RegionAcc(dest, src).Ok?
    ensures !RegionAcc(dest, src).Ok? ==>
              RegionMultiply(gf, src, multiplyBy, add, dest) == RegionAcc(dest, src).PropagateFailure()
  {
  }
}
